=== FILE: README.md ===
# Xenon command gateway: governance core in Dafny

This project models the request-governance layer of the Xenon bot's
`Xenon` class (`bot.py`). Every slash command passes through this layer
before the command framework runs it. It has four parts:

- **Rate gate** (`RateGate`). Each command picks a *bucket*: the guild, or
  the invoking user outside guilds. A blacklisted bucket is denied, and its
  blacklist entry is re-armed with a random lifetime of 15 to 60 minutes.
  Otherwise the bucket's short-lived counter is read. Above 5 the bucket is
  blacklisted, but this call still goes through. At 5 or below the counter
  becomes `count + 1` with a 2-second lifetime.
- **Morph resolver** (`Morph`, `Permissions`). A user may be mapped to
  another member. The command then runs as that member, with the guild's
  full permission set if they own the guild. Otherwise it gets the bitwise
  OR of the permissions of the roles they hold. A permission value is
  modelled as the set of its bit positions (0 to 63), so OR is set union. The payload keeps the
  original user id in `morph_source`.
- **Error boundary** (`ErrorBoundary`). A cancellation is re-raised. Any
  other error becomes one diagnostic record that is kept for a day, and the
  user sees the upper-cased error id.
- **Relay naming** (`Relay`). A pub/sub message on channel
  `gateway:events:<event>` is dispatched as `<event>`, by deleting every
  occurrence of `gateway:events:` from the channel name.

`Gateway.Execute` composes these steps in the order of
`Xenon.execute_command`. It bumps the per-command total, runs the gate,
and then, for allowed calls only, applies the morph. It returns the
store on every path, because writes that Redis has already made stay
made when a later step raises.

The shared Redis store is modelled by `Store` as an immutable
`map<string, Entry>`. An entry holds text or a hash of integers, plus an
optional TTL. Each Redis command is one atomic function: GET, SETEX, INCR,
HINCRBY and EXISTS (written as `key in s`). Time is abstracted away. An
entry with a TTL disappears only when the explicit `Expire` step is taken.
Snowflake ids are natural numbers, written into keys in decimal (`Keys`,
`Numerals`). Counters are stored as decimal text and read back with
Python's `int(...)`, so the model proves the write/read round trip.
Randomness, the clock and the chat platform's REST answers are
parameters:

- the blacklist TTL is a parameter `ttl` with `900 <= ttl <= 3600`;
- the platform's answers are functions inside a `Platform` value;
- the error id and the timestamp are parameters of `OnCommandError`.

Each `Result.Failure` stands for a Python exception that propagates: a
Redis WRONGTYPE error, an `int()` or INCR on text that is not an integer,
or a failed REST call other than a 404 from `get_guild_member`; a
failure of `get_guild`, a 404 included, propagates.

## Model

| member | source | states |
|---|---|---|
| RateGate.BucketOf | bot.py:52 | Exactly one id becomes the bucket: the guild id when the invocation has one, otherwise the user id. |
| RateGate.ReadCount | bot.py:65 | `int(get(key) or 0)`: an absent key and empty text both read as 0. Other text must parse as an integer or the read raises. A hash raises WRONGTYPE. |
| RateGate.Gate | bot.py:53-70 | Blacklisted bucket: Deny. The blocked total grows by exactly 1, and the blacklist entry becomes "1" with the fresh TTL in [900, 3600]. The counter and every other key are unchanged. Not blacklisted: Allow. At count ≤ 5 the counter reads back as count+1 with TTL 2 and no blacklist entry is created. At count > 5 a blacklist entry with the fresh TTL appears and the counter is unchanged. Failure happens exactly when a value it reads is unreadable. |
| RateGate.GateIsolatesBuckets | bot.py:52-70 | A gate step for one bucket leaves every other bucket's blacklist entry and counter as they were. |
| RateGate.GateLeavesMorphAndTotals | bot.py:53-73 | A gate step never touches a morph mapping or the per-command totals. |
| RateGate.BlacklistedStaysDenied | bot.py:53-63 | While the blacklist entry has not expired, every further call from the bucket is denied, whatever TTLs are drawn. |
| RateGate.BurstFromCount | bot.py:54-70 | From a counter reading c in [0, 6] and no blacklist, with no expiry in between: the first 7−c calls are allowed and every later one is denied. |
| RateGate.EighthCallDenied | bot.py:54-70 | From a fresh bucket, calls 1 to 7 proceed (the 7th escalates) and call 8 is denied. |
| RateGate.FreshBucketAllowed | bot.py:54-70 | A bucket with no blacklist entry and no counter is allowed, and its counter then reads 1. |
| RateGate.GateWritesVolatile | bot.py:56-70 | If the bucket's counter and blacklist entries were volatile before a gate step, they still are afterwards: the gate never makes either key persistent. |
| RateGate.BlockIsTemporary | bot.py:56-70 | Once the bucket's blacklist entry and counter have expired, the next call is allowed and the counter restarts at 1. So a block is never permanent: the gate writes both entries with a TTL. |
| Store.Get | bot.py:65 | GET returns the text under the key, or None when the key is absent. It raises WRONGTYPE exactly for a hash. |
| Store.SetEx | bot.py:70 | SETEX overwrites the key with the text and the TTL. No other key changes. |
| Store.Incr | bot.py:55 | INCR succeeds exactly when the key holds an integer (absent counts as 0). The integer read back afterwards is one larger, the TTL is kept, and no other key changes. |
| Store.HIncrBy | bot.py:49 | HINCRBY adds `delta` to one field of the hash and leaves the other fields alone. It creates the hash if needed, and a hash it creates is persistent (no TTL); an existing hash keeps its TTL. Among the values the model can hold, it raises exactly on text. |
| Store.Expire | bot.py:56-70 | When a TTL runs out only that key disappears. Persistent keys never expire. |
| Numerals.IntText | bot.py:70 | `str(cmd_count + 1)`: canonical decimal digits with no leading zero (except `0` itself), led by a minus sign exactly for a negative value. Whatever integer the gate writes as a counter, `int(...)` reads back unchanged. |
| Numerals.ParseInt | bot.py:65 | The model of `int(text)`, restricted to one grammar: it accepts exactly an optional sign followed by at least one digit; the digits give the value, negated after a minus sign. |
| Numerals.Upper | bot.py:44 | `error_id.upper()` on ASCII: same length, each lower-case letter becomes its capital (code point minus 32), every other character is kept, and no lower-case letter is left. |
| Keys.BucketKeysInjective | bot.py:53-73 | Distinct buckets get distinct blacklist, counter and morph keys. |
| Keys.NamespacesDisjoint | bot.py:35-73 | Blacklist, counter, morph and error keys never collide with each other, with `cmd:commands` or with `cmd:commands:blocked`. |
| Permissions.RoleUnion | bot.py:85-89 | The accumulation loop's result holds exactly the bits granted by some role in the list whose id the member holds: no bit is lost and none is invented. |
| Permissions.RoleUnionOrderIndependent | bot.py:86-89 | Two role lists with the same elements, in any order, give the same union. |
| Permissions.SortByPosition | bot.py:86 | `sorted(roles, key=position)`: the result is ordered by position and is a permutation of the input. |
| Permissions.SortedUnionEqualsUnion | bot.py:86-89 | Sorting the roles by position before the loop does not change the computed permissions. |
| Morph.EffectivePermissions | bot.py:80-89 | The guild owner gets ALL. Anyone else gets exactly the union of the held roles' permissions, taken in the guild's own role order: exactly the bits some held role grants. |
| Morph.AllPermsExactlyForOwner | bot.py:81-89 | The result is ALL exactly when the member owns the guild or the held roles already cover every bit. |
| Morph.ApplyMorph | bot.py:73-93 | No mapping, or a 404 from the member lookup: the payload is unchanged. Any other lookup or guild failure propagates. A mapping under a hash raises. Otherwise the payload carries the target member (id and roles) and `morph_source` = the original user id. Its permissions are ALL for the owner and the role union for anyone else. |
| Gateway.Execute | bot.py:48-95 | The store is returned on every path, because Redis keeps each write made before a later step raises. Among the values the model can hold, the telemetry HINCRBY raises only on a text value, and then nothing is written. Once it succeeded, the command's total in the final store is one higher and no other total changes, whether the call is denied, proceeds or later raises. A gate that raises has written nothing more; a gate that decided leaves its writes in the final store, also when the morph then raises. A blacklisted bucket whose gate step succeeded always ends in `Denied`, never in a morph failure, because the deny path returns before the morph lookup (bot.py:57). A completed call is denied exactly when its bucket was blacklisted. A call that proceeds carries the morph of the mappings as they were before the call, and a failure after the gate is exactly the morph's failure. |
| Gateway.TotalsPreserveSound | bot.py:49 | On a sound store the telemetry write succeeds and the store stays sound. |
| Gateway.GatePreservesSound | bot.py:53-70 | On a sound store the gate never fails and the store stays sound. |
| Gateway.ExecuteFailsOnlyOnPlatform | bot.py:49-93 | On a sound store, the only failure is a failed platform request: telemetry, gate and morph lookup never raise. |
| Gateway.ExecuteKeepsStoreSound | bot.py:49-95 | On a sound store, the store left behind is sound on every path, the failing ones included. A sound store holds an integer blocked total, a hash of totals, integer counters and text morph mappings. |
| ErrorBoundary.OnCommandError | bot.py:26-46 | The error is re-raised exactly when it is a cancellation. Any other error gives one record under `cmd:errors:<id>` with TTL 86400, holding the command, timestamp, author and traceback. The code shown is the id upper-cased: each lower-case letter becomes its capital and every other character is kept. |
| ErrorBoundary.DistinctFaultsDistinctRecords | bot.py:34-35 | Faults with different error ids are stored under different keys. |
| ErrorBoundary.RecordKeyOutsideGovernance | bot.py:35 | An error record never lands on a gate, morph or telemetry key. |
| Relay.RemoveAllLeftmost | bot.py:102 | `RemoveAll`, the model of `str.replace(p, "")`, keeps the text before the leftmost occurrence, deletes that occurrence and continues after it. |
| Relay.RemoveAllAbsent | bot.py:102 | `RemoveAll` returns a string with no occurrence of the pattern unchanged. Together with `RemoveAllLeftmost` this fixes its result on every input. |
| Relay.EventName | bot.py:102 | The dispatched name is never longer than the channel name, and a channel name without the prefix is dispatched under its own name. |
| Relay.ChannelRoundTrip | bot.py:98-102 | `gateway:events:<e>` is dispatched as `<e>` for every event name `<e>` that does not contain the prefix. |
| Relay.InnerOccurrenceRemoved | bot.py:102 | The prefix is removed in the middle of a name too: `<a>gateway:events:<b>` maps to `<a><b>` when no occurrence of the prefix starts inside `<a>` and `<b>` contains none. This is not a prefix strip. |
| Relay.SinglePass | bot.py:102 | The replace runs in one pass. For every `<x>` without the prefix, `gatewgateway:events:ay:events:<x>` maps to `gateway:events:<x>`, which still contains the prefix. |

## Left out

- Client setup and plumbing are left out: Redis, Mongo and HTTP client setup, `prepare`, `make_request`, the `com.Relay` reader and `push_commands`. These are connection code over libraries outside this model.
- `gateway_subscriber` is modelled only through its name mapping. The subscription, the `async for` loop, `json.loads` and `dispatch` are a background task over foreign libraries. A `json.loads` error is not caught, so it leaves the `async for` and ends the subscriber task; the loop is not modelled.
- Store values are modelled as decoded text, not bytes. A morph mapping that is not valid UTF-8 makes `morph_target.decode()` (bot.py:76) raise `UnicodeDecodeError`, which the `except rest.HTTPNotFound` does not catch, so the invocation fails; the model cannot represent such a value and does not model that error.
- Store.HIncrBy: hash fields are modelled as integers, so Redis's "hash value is not an integer" error for a field holding other text is not modelled. Lists, sets and other Redis types are not modelled either, so the WRONGTYPE errors they would cause on GET, INCR or HINCRBY are left out. Only strings and hashes occur under the keys the gateway uses.
- Redis is assumed always reachable. Every `await self.redis.*` call in bot.py:35 and 49-73 can also raise a connection error, which would propagate; the model's store operations fail only on WRONGTYPE or a non-integer text, and `Fault.Unavailable` stands only for a failed platform request.
- The race between the blacklist check and the counter update is left out. Each gate call is modelled as one atomic step, and interleavings of concurrent invocations are not modelled.
- Real time is not modelled. TTL countdown is the explicit `Store.Expire` step, and `random.randint(900, 3600)` is the `ttl` parameter.
- Traceback formatting, `unique_id()`, `datetime.utcnow()`, the write to stderr, message texts, `create_message` and the ephemeral flag are library calls or cosmetic. The traceback, the id and the timestamp (as an integer) are parameters.
- `ErrorBoundary.OnCommandError` returns the record write (key, record, TTL) instead of applying it to `Store`, because the record's JSON encoding (`json.dumps`) is a foreign library.
- `super().execute_command` is outside this model. It appears only as the `Proceed(payload)` response.
- `Permissions.all()` is the constant `AllPerms`, the set of all 64 bit positions. The library's exact value is outside this model.
- Integer ranges are not modelled: Redis INCR and HINCRBY use 64-bit integers and fail on overflow, but the model's integers are unbounded.
- Numerals.ParseInt: Python's `int()` also accepts surrounding whitespace and underscores between digits (`" 5"`, `"1_0"`), which the model rejects; Redis refuses some texts that Python accepts. Both are modelled by one rule: an optional sign followed by digits.
- `Numerals.Upper` maps only ASCII letters. Python's `str.upper()` on non-ASCII characters is not modelled.
- The payload always carries a member record. What happens to a direct-message payload without `member` depends on the framework, which is not part of this model.
- `Permissions.SortByPosition`: its contract states order and permutation but not that equal positions keep their input order, as Python's stable `sorted` does. The difference cannot be observed through the OR.
- `Relay.RemoveAll` does not state that the number of deleted characters is a multiple of the prefix length.

=== FILE: error_boundary.dfy ===
/** The unhandled-error boundary `Xenon.on_command_error` (bot.py:26-46).
    Formatting the traceback, drawing the unique id and reading the clock
    happen outside; they arrive here as parameters. */
module ErrorBoundary {
  import opened Numerals
  import opened Keys

  /** Seconds an error record is kept: one day. */
  const ErrorTtl: nat := 60 * 60 * 24

  /** What the command raised: a cooperative cancellation, or any other
      exception together with its formatted traceback. */
  datatype Raised = Cancelled | Fault(traceback: string)

  /** The diagnostic document stored for an error. */
  datatype ErrorRecord = ErrorRecord(command: string, timestamp: int, author: Snowflake, traceback: string)

  datatype Handled =
    | Reraise
      // Store `record` under `key` for `ttl` seconds and show `errorCode`.
    | Reported(key: string, record: ErrorRecord, ttl: nat, errorCode: string)

  function OnCommandError(e: Raised, command: string, author: Snowflake, errorId: string, now: int): (h: Handled)
    // Cancellation always propagates, and only cancellation does.
    ensures e.Cancelled? <==> h.Reraise?
    // Any other fault yields exactly one record, kept for a day, holding
    // the command, the invoker and the traceback.
    ensures e.Fault? ==>
      && h.key == ErrorKey(errorId)
      && h.ttl == ErrorTtl
      && h.record == ErrorRecord(command, now, author, e.traceback)
    // The user sees the id in upper case: each lower-case letter becomes
    // its capital and every other character stays as it was.
    ensures e.Fault? ==>
      && |h.errorCode| == |errorId|
      && (forall i | 0 <= i < |errorId| :: !IsLower(h.errorCode[i]))
      && (forall i | 0 <= i < |errorId| :: IsLower(errorId[i]) ==> h.errorCode[i] as int == errorId[i] as int - 32)
      && (forall i | 0 <= i < |errorId| :: !IsLower(errorId[i]) ==> h.errorCode[i] == errorId[i])
  {
    match e
    case Cancelled => Reraise
    case Fault(tb) => Reported(ErrorKey(errorId), ErrorRecord(command, now, author, tb), ErrorTtl, Upper(errorId))
  }

  /** Distinct error ids never share a record. */
  lemma ErrorKeysInjective(a: string, b: string)
    requires a != b
    ensures ErrorKey(a) != ErrorKey(b)
  {
    assert ErrorKey(a)[|ErrorPrefix|..] == a;
    assert ErrorKey(b)[|ErrorPrefix|..] == b;
  }

  /** Two faults with different ids are recorded under different keys. */
  lemma DistinctFaultsDistinctRecords(e1: Raised, e2: Raised, command: string, author: Snowflake,
                                      id1: string, id2: string, now: int)
    requires e1.Fault? && e2.Fault? && id1 != id2
    ensures OnCommandError(e1, command, author, id1, now).key != OnCommandError(e2, command, author, id2, now).key
  {
    ErrorKeysInjective(id1, id2);
  }

  /** An error record never lands on a key of the rate gate or the morph
      mappings. */
  lemma RecordKeyOutsideGovernance(e: Raised, command: string, author: Snowflake, errorId: string, now: int,
                                   bucket: Snowflake)
    requires e.Fault?
    ensures OnCommandError(e, command, author, errorId, now).key !in
      {BlacklistKey(bucket), CounterKey(bucket), MorphKey(bucket), BlockedKey, CommandsKey}
  {
    NamespacesDisjoint(bucket, bucket, errorId);
  }
}

=== FILE: gateway.dfy ===
/** `Xenon.execute_command` (bot.py:48-95): the composition of telemetry,
    the rate gate and the morph resolver in front of the command framework. */
module Gateway {
  import opened Results
  import opened Numerals
  import opened Keys
  import opened Store
  import opened RateGate
  import opened Morph

  /** What the gateway hands back: the ephemeral denial message, or the
      (possibly morphed) payload passed on to the framework's own
      `execute_command`, which is outside this model. */
  datatype Response = Denied | Proceed(payload: Payload)

  /** One invocation. Redis keeps every write made before a step raises,
      so the store is returned on every path, the failing ones included. */
  function Execute(s: Store, commandName: string, payload: Payload, ttl: nat, platform: Platform)
    : (r: (Result<Response>, Store))
    requires IsBlacklistTtl(ttl)
    // The telemetry write raises only on a text value; nothing is written then.
    ensures CommandsKey in s && s[CommandsKey].value.Str? ==> r == (Failure(WrongType), s)
    // Once it has succeeded, the command is counted once in the final store,
    // however the rest of the invocation ends, and no other total changes.
    ensures !(CommandsKey in s && s[CommandsKey].value.Str?) ==>
      && HashField(r.1, CommandsKey, commandName) == HashField(s, CommandsKey, commandName) + 1
      && (forall other | other != commandName ::
            HashField(r.1, CommandsKey, other) == HashField(s, CommandsKey, other))
    // A gate that raises has written nothing; a gate that decided leaves its
    // writes in the final store, whether the morph then succeeds or raises.
    ensures var counted := HIncrBy(s, CommandsKey, commandName, 1);
      var bucket := BucketOf(payload.guildId, payload.member.id);
      counted.Success? ==>
        && (Gate(counted.value, bucket, ttl).Failure? ==>
              r == (Failure(Gate(counted.value, bucket, ttl).error), counted.value))
        && (Gate(counted.value, bucket, ttl).Success? ==>
              r.1 == Gate(counted.value, bucket, ttl).value.1)
    // A blacklisted bucket is denied as soon as the gate has decided: the
    // morph is never looked up, so nothing after the gate can fail.
    ensures var counted := HIncrBy(s, CommandsKey, commandName, 1);
      var bucket := BucketOf(payload.guildId, payload.member.id);
      counted.Success? && Gate(counted.value, bucket, ttl).Success? && BlacklistKey(bucket) in s ==>
        r.0 == Success(Denied)
    // Denied exactly when the invocation's bucket was blacklisted.
    ensures r.0.Success? ==>
      (r.0.value.Denied? <==> BlacklistKey(BucketOf(payload.guildId, payload.member.id)) in s)
    // A command that proceeds runs with the morphed payload, computed
    // against the mappings as they were before this invocation.
    ensures r.0.Success? && r.0.value.Proceed? ==> ApplyMorph(s, payload, platform) == Success(r.0.value.payload)
    // After a decided gate, a failure can only be the morph's own failure.
    ensures var counted := HIncrBy(s, CommandsKey, commandName, 1);
      r.0.Failure? && counted.Success?
        && Gate(counted.value, BucketOf(payload.guildId, payload.member.id), ttl).Success? ==>
        ApplyMorph(s, payload, platform) == Failure(r.0.error)
  {
    match HIncrBy(s, CommandsKey, commandName, 1)
    case Failure(e) => (Failure(e), s)
    case Success(s1) =>
      var bucket := BucketOf(payload.guildId, payload.member.id);
      NamespacesDisjoint(payload.member.id, bucket, "");
      NamespacesDisjoint(bucket, bucket, "");
      assert SameEntry(s, s1, MorphKey(payload.member.id));
      assert SameEntry(s, s1, BlacklistKey(bucket));
      match Gate(s1, bucket, ttl)
      case Failure(e) => (Failure(e), s1)
      case Success(gate) =>
        GateLeavesMorphAndTotals(s1, bucket, payload.member.id, ttl);
        if gate.0 == Deny then (Success(Denied), gate.1)
        else match ApplyMorph(gate.1, payload, platform)
          case Failure(e) => (Failure(e), gate.1)
          case Success(morphed) => (Success(Proceed(morphed)), gate.1)
  }

  /** The shape of a store the gateway can always work on: the blocked
      total is an integer, the command totals are a hash, every bucket
      counter reads as an integer and every morph mapping is text. */
  ghost predicate Sound(s: Store) {
    && IntegerAt(s, BlockedKey).Some?
    && (CommandsKey in s ==> s[CommandsKey].value.Hash?)
    && (forall b: Snowflake :: ReadCount(s, CounterKey(b)).Success?)
    && (forall u: Snowflake :: MorphKey(u) in s ==> s[MorphKey(u)].value.Str?)
  }

  lemma TotalsPreserveSound(s: Store, commandName: string)
    requires Sound(s)
    ensures HIncrBy(s, CommandsKey, commandName, 1).Success?
    ensures Sound(HIncrBy(s, CommandsKey, commandName, 1).value)
  {
    var s1 := HIncrBy(s, CommandsKey, commandName, 1).value;
    NamespacesDisjoint(0, 0, "");
    assert SameEntry(s, s1, BlockedKey);
    forall b: Snowflake
      ensures ReadCount(s1, CounterKey(b)).Success?
    {
      NamespacesDisjoint(b, b, "");
      assert SameEntry(s, s1, CounterKey(b));
      assert ReadCount(s, CounterKey(b)).Success?;
    }
    forall u: Snowflake | MorphKey(u) in s1
      ensures s1[MorphKey(u)].value.Str?
    {
      NamespacesDisjoint(u, u, "");
      assert SameEntry(s, s1, MorphKey(u));
    }
  }

  lemma GatePreservesSound(s: Store, bucket: Snowflake, ttl: nat)
    requires Sound(s) && IsBlacklistTtl(ttl)
    ensures Gate(s, bucket, ttl).Success?
    ensures Sound(Gate(s, bucket, ttl).value.1)
  {
    assert ReadCount(s, CounterKey(bucket)).Success?;
    var s' := Gate(s, bucket, ttl).value.1;
    NamespacesDisjoint(bucket, bucket, "");
    forall b: Snowflake
      ensures ReadCount(s', CounterKey(b)).Success?
    {
      if b != bucket {
        GateIsolatesBuckets(s, bucket, b, ttl);
        assert ReadCount(s, CounterKey(b)).Success?;
      }
    }
    forall u: Snowflake | MorphKey(u) in s'
      ensures s'[MorphKey(u)].value.Str?
    {
      GateLeavesMorphAndTotals(s, bucket, u, ttl);
    }
    GateLeavesMorphAndTotals(s, bucket, 0, ttl);
  }

  /** On a sound store the gateway fails only when the chat platform does. */
  lemma ExecuteFailsOnlyOnPlatform(s: Store, commandName: string, payload: Payload, ttl: nat, platform: Platform)
    requires Sound(s) && IsBlacklistTtl(ttl)
    ensures Execute(s, commandName, payload, ttl, platform).0.Failure? ==>
      Execute(s, commandName, payload, ttl, platform).0.error == Unavailable
  {
    TotalsPreserveSound(s, commandName);
    var s1 := HIncrBy(s, CommandsKey, commandName, 1).value;
    var bucket := BucketOf(payload.guildId, payload.member.id);
    GatePreservesSound(s1, bucket, ttl);
    var s2 := Gate(s1, bucket, ttl).value.1;
    assert MorphKey(payload.member.id) in s2 ==> s2[MorphKey(payload.member.id)].value.Str?;
  }

  /** The store the gateway leaves behind is sound on every path, the
      failing ones included. */
  lemma ExecuteKeepsStoreSound(s: Store, commandName: string, payload: Payload, ttl: nat, platform: Platform)
    requires Sound(s) && IsBlacklistTtl(ttl)
    ensures Sound(Execute(s, commandName, payload, ttl, platform).1)
  {
    TotalsPreserveSound(s, commandName);
    var s1 := HIncrBy(s, CommandsKey, commandName, 1).value;
    GatePreservesSound(s1, BucketOf(payload.guildId, payload.member.id), ttl);
  }
}

=== FILE: keys.dfy ===
/** The Redis key layout of the command gateway (bot.py:35, 49-70, 73).
    Every key the core touches lives under `cmd:`; the per-bucket keys carry
    the bucket's snowflake id in decimal. */
module Keys {
  import opened Numerals

  /** A Discord snowflake id (guild or user). */
  type Snowflake = nat

  /** Hash of per-command invocation totals, one field per command name. */
  const CommandsKey: string := "cmd:commands"

  /** Global count of denied invocations. */
  const BlockedKey: string := "cmd:commands:blocked"

  const BlacklistPrefix: string := "cmd:blacklist:"
  const CounterPrefix: string := "cmd:commands:"
  const MorphPrefix: string := "cmd:morph:"
  const ErrorPrefix: string := "cmd:errors:"

  function BlacklistKey(bucket: Snowflake): string {
    BlacklistPrefix + Decimal(bucket)
  }

  function CounterKey(bucket: Snowflake): string {
    CounterPrefix + Decimal(bucket)
  }

  function MorphKey(user: Snowflake): string {
    MorphPrefix + Decimal(user)
  }

  function ErrorKey(errorId: string): string {
    ErrorPrefix + errorId
  }

  lemma PrefixedIdInjective(prefix: string, a: Snowflake, b: Snowflake)
    requires prefix + Decimal(a) == prefix + Decimal(b)
    ensures a == b
  {
    assert (prefix + Decimal(a))[|prefix|..] == Decimal(a);
    assert (prefix + Decimal(b))[|prefix|..] == Decimal(b);
    DecimalInjective(a, b);
  }

  /** Each per-bucket key names exactly one bucket. */
  lemma BucketKeysInjective(a: Snowflake, b: Snowflake)
    requires a != b
    ensures BlacklistKey(a) != BlacklistKey(b)
    ensures CounterKey(a) != CounterKey(b)
    ensures MorphKey(a) != MorphKey(b)
  {
    forall prefix: string | prefix in {BlacklistPrefix, CounterPrefix, MorphPrefix}
      ensures prefix + Decimal(a) != prefix + Decimal(b)
    {
      if prefix + Decimal(a) == prefix + Decimal(b) {
        PrefixedIdInjective(prefix, a, b);
      }
    }
  }

  /** The namespaces never overlap: a blacklist flag is never read as a
      counter, no bucket counter is the global blocked counter, and no error
      record overwrites governance state, whatever the ids. */
  lemma NamespacesDisjoint(a: Snowflake, b: Snowflake, errorId: string)
    ensures BlacklistKey(a) != CounterKey(b)
    ensures BlacklistKey(a) != MorphKey(b)
    ensures CounterKey(a) != MorphKey(b)
    ensures BlacklistKey(a) != BlockedKey && BlacklistKey(a) != CommandsKey
    ensures CounterKey(a) != BlockedKey && CounterKey(a) != CommandsKey
    ensures MorphKey(a) != BlockedKey && MorphKey(a) != CommandsKey
    ensures ErrorKey(errorId) !in {BlacklistKey(a), CounterKey(a), MorphKey(a), BlockedKey, CommandsKey}
  {
    assert BlacklistKey(a)[4] == 'b' && CounterKey(b)[4] == 'c' && MorphKey(b)[4] == 'm';
    assert CounterKey(a)[4] == 'c' && MorphKey(a)[4] == 'm' && ErrorKey(errorId)[4] == 'e';
    assert BlockedKey[4] == 'c' && CommandsKey[4] == 'c';
    assert IsDigit(CounterKey(a)[|CounterPrefix|]) && !IsDigit(BlockedKey[|CounterPrefix|]);
    assert |CommandsKey| < |CounterKey(a)|;
  }
}

=== FILE: morph.dfy ===
/** Identity substitution ("morph", bot.py:72-93): when an administrator has
    mapped the invoking user to another member, the command runs as that
    member, with permissions recomputed from the guild. */
module Morph {
  import opened Results
  import opened Keys
  import opened Store
  import opened Permissions

  /** The member record of an interaction payload: the user's id, the ids of
      the roles they hold, and their effective permissions. */
  datatype Member = Member(id: Snowflake, roles: seq<Snowflake>, permissions: Perms)

  datatype Guild = Guild(ownerId: Snowflake, roles: seq<Role>)

  /** The invocation payload as far as the gateway reads or rewrites it. */
  datatype Payload = Payload(guildId: Option<Snowflake>, member: Member, morphSource: Option<Snowflake>)

  /** The answer to `get_guild_member`: the member, HTTP 404, or any other
      failure. */
  datatype MemberLookup = Found(member: Member) | NotFound | LookupFailed

  /** The chat platform's REST API as the resolver sees it: the answers to
      `get_guild_member(guild_id, target)` and `get_guild(guild_id)`, where
      `None` stands for a failed request. */
  datatype Platform = Platform(
    getGuildMember: (Option<Snowflake>, string) -> MemberLookup,
    getGuild: Option<Snowflake> -> Option<Guild>)

  /** The permissions the substituted member runs with: everything for the
      guild's owner, otherwise the union of the roles they hold, visited in
      position order. */
  function EffectivePermissions(guild: Guild, member: Member): (p: Perms)
    ensures guild.ownerId == member.id ==> p == AllPerms
    ensures guild.ownerId != member.id ==> p == RoleUnion(guild.roles, member.roles)
    ensures guild.ownerId != member.id ==> p == HeldPermissions(guild.roles, member.roles)
  {
    if guild.ownerId == member.id then AllPerms
    else
      SortedUnionEqualsUnion(guild.roles, member.roles);
      RoleUnion(SortByPosition(guild.roles), member.roles)
  }

  /** The full permission set is granted exactly when the member owns the
      guild or their roles already cover every bit. */
  lemma AllPermsExactlyForOwner(guild: Guild, member: Member)
    ensures EffectivePermissions(guild, member) == AllPerms <==>
      guild.ownerId == member.id || RoleUnion(guild.roles, member.roles) == AllPerms
  {
  }

  /** Apply the morph mapping of the invoking user, if there is one. */
  function ApplyMorph(s: Store, payload: Payload, platform: Platform): (r: Result<Payload>)
    // No mapping: the payload is untouched.
    ensures MorphKey(payload.member.id) !in s ==> r == Success(payload)
    // A mapping under a hash cannot be read: GET raises.
    ensures MorphKey(payload.member.id) in s && s[MorphKey(payload.member.id)].value.Hash? ==>
      r == Failure(WrongType)
    ensures MorphKey(payload.member.id) in s && s[MorphKey(payload.member.id)].value.Str? ==>
      var lookup := platform.getGuildMember(payload.guildId, s[MorphKey(payload.member.id)].value.text);
      // The target is not in the guild: silently no morph.
      && (lookup.NotFound? ==> r == Success(payload))
      // Any other lookup failure propagates.
      && (lookup.LookupFailed? ==> r == Failure(Unavailable))
      // The target was found: the payload now carries the target member,
      // their computed permissions, and the original invoker.
      && (lookup.Found? ==>
            && (r.Success? <==> platform.getGuild(payload.guildId).Some?)
            && (r.Failure? ==> r.error == Unavailable)
            && (r.Success? ==>
                  var guild := platform.getGuild(payload.guildId).value;
                  && r.value.guildId == payload.guildId
                  && r.value.morphSource == Some(payload.member.id)
                  && r.value.member.id == lookup.member.id
                  && r.value.member.roles == lookup.member.roles
                  && (guild.ownerId == lookup.member.id ==> r.value.member.permissions == AllPerms)
                  && (guild.ownerId != lookup.member.id ==>
                        r.value.member.permissions == RoleUnion(guild.roles, lookup.member.roles))))
  {
    var target :- Get(s, MorphKey(payload.member.id));
    match target
    case None => Success(payload)
    case Some(t) =>
      match platform.getGuildMember(payload.guildId, t)
      case NotFound => Success(payload)
      case LookupFailed => Failure(Unavailable)
      case Found(m) =>
        match platform.getGuild(payload.guildId)
        case None => Failure(Unavailable)
        case Some(guild) =>
          var perms := EffectivePermissions(guild, m);
          Success(payload.(morphSource := Some(payload.member.id), member := m.(permissions := perms)))
  }
}

=== FILE: numerals.dfy ===
/** The decimal text through which ids and counters travel: Redis keeps every
    value as text, snowflake ids are rendered into keys in decimal, and the
    gate reads its counter back with Python's `int(...)`. */
module Numerals {
  import opened Results

  predicate IsDigit(c: char) {
    '0' <= c <= '9'
  }

  predicate AllDigits(s: string) {
    forall i | 0 <= i < |s| :: IsDigit(s[i])
  }

  function DigitChar(d: nat): (c: char)
    requires d < 10
    ensures IsDigit(c)
  {
    (d + '0' as int) as char
  }

  /** The value of a string of decimal digits, most significant first. */
  function ParseDigits(s: string): nat
    requires AllDigits(s)
  {
    if |s| == 0 then 0
    else ParseDigits(s[..|s| - 1]) * 10 + (s[|s| - 1] as int - '0' as int)
  }

  /** Decimal rendering of a natural number without leading zeros. */
  function Decimal(n: nat): (s: string)
    ensures 0 < |s|
    ensures AllDigits(s)
    ensures |s| == 1 <==> n < 10
    // Canonical: a leading zero only in "0" itself.
    ensures 0 < n ==> s[0] != '0'
    ensures |s| == 1 || s[0] != '0'
    decreases n
  {
    if n < 10 then [DigitChar(n)] else Decimal(n / 10) + [DigitChar(n % 10)]
  }

  /** Python's `int(text)` on the text Redis hands back: an optional sign and
      at least one digit; anything else raises. */
  function ParseInt(s: string): (r: Option<int>)
    ensures r.Some? <==>
      || (0 < |s| && AllDigits(s))
      || (1 < |s| && (s[0] == '-' || s[0] == '+') && AllDigits(s[1..]))
    ensures r.Some? && AllDigits(s) ==> r.value == ParseDigits(s)
    ensures r.Some? && s[0] == '-' ==> r.value == -(ParseDigits(s[1..]) as int)
    ensures r.Some? && s[0] == '+' ==> r.value == ParseDigits(s[1..])
  {
    if 1 < |s| && s[0] == '-' && AllDigits(s[1..]) then Some(-(ParseDigits(s[1..]) as int))
    else if 1 < |s| && s[0] == '+' && AllDigits(s[1..]) then Some(ParseDigits(s[1..]))
    else if 0 < |s| && AllDigits(s) then Some(ParseDigits(s))
    else None
  }

  /** Python's `str(i)` for an integer: decimal digits, with a minus sign
      for a negative value. Whatever integer the gate writes, `int(...)`
      reads back unchanged. */
  function IntText(i: int): (t: string)
    ensures 0 <= i ==> 0 < |t| && AllDigits(t) && (|t| == 1 || t[0] != '0')
    ensures i < 0 ==> 1 < |t| && t[0] == '-' && AllDigits(t[1..]) && t[1] != '0'
    ensures ParseInt(t) == Some(i)
  {
    if i < 0 then
      DecimalRoundTrip(-i);
      ParseIntOfNegated(Decimal(-i));
      assert ("-" + Decimal(-i))[1..] == Decimal(-i);
      "-" + Decimal(-i)
    else
      DecimalRoundTrip(i);
      ParseIntOfDigits(Decimal(i));
      Decimal(i)
  }

  lemma {:induction false} DecimalRoundTrip(n: nat)
    ensures ParseDigits(Decimal(n)) == n
    decreases n
  {
    if n >= 10 {
      var s := Decimal(n);
      assert s[..|s| - 1] == Decimal(n / 10);
      DecimalRoundTrip(n / 10);
    }
  }

  lemma ParseIntOfDigits(d: string)
    requires 0 < |d| && AllDigits(d)
    ensures ParseInt(d) == Some(ParseDigits(d) as int)
  {
    assert IsDigit(d[0]);
  }

  lemma ParseIntOfNegated(d: string)
    requires 0 < |d| && AllDigits(d)
    ensures ParseInt("-" + d) == Some(-(ParseDigits(d) as int))
  {
    var t := "-" + d;
    assert t[1..] == d;
    assert t[0] == '-';
  }

  /** Distinct ids render to distinct texts. */
  lemma DecimalInjective(a: nat, b: nat)
    requires Decimal(a) == Decimal(b)
    ensures a == b
  {
    DecimalRoundTrip(a);
    DecimalRoundTrip(b);
  }

  predicate IsLower(c: char) {
    'a' <= c <= 'z'
  }

  /** Python's `str.upper()` restricted to ASCII letters. */
  function Upper(s: string): (r: string)
    ensures |r| == |s|
    ensures forall i | 0 <= i < |s| :: !IsLower(r[i])
    // A lower-case letter becomes its capital; every other character stays.
    ensures forall i | 0 <= i < |s| :: IsLower(s[i]) ==> r[i] as int == s[i] as int - 32
    ensures forall i | 0 <= i < |s| :: !IsLower(s[i]) ==> r[i] == s[i]
  {
    if |s| == 0 then ""
    else
      var c := s[0];
      [if IsLower(c) then (c as int - 32) as char else c] + Upper(s[1..])
  }
}

=== FILE: permissions.dfy ===
/** Discord permission sets and the role-union computation used when a
    command runs as another member (bot.py:81-89). A permission integer is
    modelled as the set of its bit positions, so `|=` is set union. */
module Permissions {
  import opened Keys

  /** A permission bit position. */
  type Bit = b: nat | b < 64

  type Perms = set<Bit>

  const NoPerms: Perms := {}
  /** `Permissions.all()`: every bit set. */
  const AllPerms: Perms := set b: Bit | 0 <= b < 64

  datatype Role = Role(id: Snowflake, position: int, permissions: Perms)

  /** Reference definition: every bit granted by some role the member holds. */
  ghost function HeldPermissions(roles: seq<Role>, held: seq<Snowflake>): Perms {
    set r, b | r in roles && r.id in held && b in r.permissions :: b
  }

  /** The accumulation loop of bot.py:87-89: starting from no permissions,
      OR in the permissions of each role, in list order, whose id the member
      holds. It computes exactly the bits granted by the held roles. */
  function RoleUnion(roles: seq<Role>, held: seq<Snowflake>): (p: Perms)
    ensures p == HeldPermissions(roles, held)
    decreases |roles|
  {
    if |roles| == 0 then NoPerms
    else
      var init := roles[..|roles| - 1];
      var last := roles[|roles| - 1];
      var acc := RoleUnion(init, held);
      assert roles == init + [last];
      HeldPermissionsSnoc(init, last, held);
      if last.id in held then acc + last.permissions else acc
  }

  /** Appending one role adds its bits exactly when the member holds it. */
  lemma HeldPermissionsSnoc(init: seq<Role>, last: Role, held: seq<Snowflake>)
    ensures HeldPermissions(init + [last], held) ==
      HeldPermissions(init, held) + (if last.id in held then last.permissions else {})
  {
    var roles := init + [last];
    var expected := HeldPermissions(init, held) + (if last.id in held then last.permissions else {});
    forall b: Bit
      ensures b in HeldPermissions(roles, held) <==> b in expected
    {
      if b in HeldPermissions(roles, held) {
        var r :| r in roles && r.id in held && b in r.permissions;
        if r != last {
          assert r in init;
        }
      }
      if b in HeldPermissions(init, held) {
        var r :| r in init && r.id in held && b in r.permissions;
        assert r in roles;
      }
    }
  }

  /** The union does not depend on the order the roles are visited in. */
  lemma RoleUnionOrderIndependent(a: seq<Role>, b: seq<Role>, held: seq<Snowflake>)
    requires multiset(a) == multiset(b)
    ensures RoleUnion(a, held) == RoleUnion(b, held)
  {
    forall r
      ensures r in a <==> r in b
    {
      assert r in a <==> r in multiset(a);
      assert r in b <==> r in multiset(b);
    }
  }

  predicate SortedByPosition(roles: seq<Role>) {
    forall i, j | 0 <= i < j < |roles| :: roles[i].position <= roles[j].position
  }

  /** Place `r` before the first role of `sorted` whose position is not
      below its own. */
  function InsertByPosition(r: Role, sorted: seq<Role>): (result: seq<Role>)
    requires SortedByPosition(sorted)
    ensures SortedByPosition(result)
    ensures multiset(result) == multiset(sorted) + multiset{r}
    decreases |sorted|
  {
    if |sorted| == 0 || r.position <= sorted[0].position then [r] + sorted
    else
      var rest := InsertByPosition(r, sorted[1..]);
      InsertedStaysSorted(sorted[0], rest, sorted[1..], r);
      assert sorted == [sorted[0]] + sorted[1..];
      assert multiset([sorted[0]] + rest) == multiset{sorted[0]} + multiset(rest);
      [sorted[0]] + rest
  }

  lemma InsertedStaysSorted(head: Role, rest: seq<Role>, tail: seq<Role>, r: Role)
    requires SortedByPosition(rest)
    requires SortedByPosition([head] + tail)
    requires head.position <= r.position
    requires multiset(rest) == multiset(tail) + multiset{r}
    ensures SortedByPosition([head] + rest)
  {
    forall x | x in rest
      ensures head.position <= x.position
    {
      assert x in multiset(rest);
      if x != r {
        assert x in multiset(tail);
        assert x in tail;
        var k :| 0 <= k < |tail| && tail[k] == x;
        assert ([head] + tail)[0] == head;
        assert ([head] + tail)[k + 1] == x;
      }
    }
    var s := [head] + rest;
    forall i, j | 0 <= i < j < |s|
      ensures s[i].position <= s[j].position
    {
      if i == 0 {
        assert s[j] == rest[j - 1];
        assert rest[j - 1] in rest;
      } else {
        assert s[i] == rest[i - 1] && s[j] == rest[j - 1];
      }
    }
  }

  /** `sorted(roles, key=lambda r: r.position)`. */
  function SortByPosition(roles: seq<Role>): (result: seq<Role>)
    ensures SortedByPosition(result)
    ensures multiset(result) == multiset(roles)
    decreases |roles|
  {
    if |roles| == 0 then []
    else
      assert roles == [roles[0]] + roles[1..];
      InsertByPosition(roles[0], SortByPosition(roles[1..]))
  }

  /** Sorting the roles by position before the union, as the source does,
      gives the same permissions as visiting them in the guild's order. */
  lemma SortedUnionEqualsUnion(roles: seq<Role>, held: seq<Snowflake>)
    ensures RoleUnion(SortByPosition(roles), held) == RoleUnion(roles, held)
  {
    RoleUnionOrderIndependent(SortByPosition(roles), roles, held);
  }
}

=== FILE: rate_gate.dfy ===
/** The global abuse-rate gate of `Xenon.execute_command` (bot.py:52-70).
    Each bucket (a guild, or a user outside guilds) has a short-lived
    invocation counter and may carry a blacklist flag; the gate is one atomic
    check-and-mutate step on the store. */
module RateGate {
  import opened Results
  import opened Numerals
  import opened Keys
  import opened Store

  /** More invocations than this within one counter lifetime escalate. */
  const BurstLimit: int := 5
  /** Seconds an invocation counter lives after its last write. */
  const CounterTtl: nat := 2
  /** Range of the randomised blacklist lifetime, in seconds (15 to 60 minutes). */
  const MinBlacklistTtl: nat := 60 * 15
  const MaxBlacklistTtl: nat := 60 * 60
  /** The text stored under a blacklist key. */
  const BlacklistMark: string := "1"

  datatype Decision = Allow | Deny

  /** `payload.guild_id or payload.member["user"]["id"]`: exactly one id is
      chosen, the guild's when the invocation happened in a guild. */
  function BucketOf(guildId: Option<Snowflake>, userId: Snowflake): (b: Snowflake)
    ensures guildId.Some? ==> b == guildId.value
    ensures guildId.None? ==> b == userId
  {
    match guildId
    case Some(g) => g
    case None => userId
  }

  /** `int(await redis.get(key) or 0)`: an absent key and empty text both
      read as 0 (Python's `or`), other text must be an integer. */
  function ReadCount(s: Store, key: string): (r: Result<int>)
    ensures key !in s ==> r == Success(0)
    ensures key in s && s[key].value == Str("") ==> r == Success(0)
    ensures key in s && s[key].value.Hash? ==> r == Failure(WrongType)
    ensures key in s && s[key].value.Str? && s[key].value.text != "" ==>
      r.Success? == ParseInt(s[key].value.text).Some? &&
      (r.Success? ==> Some(r.value) == IntegerAt(s, key))
  {
    var raw :- Get(s, key);
    match raw
    case None => Success(0)
    case Some(t) =>
      if t == "" then Success(0)
      else match ParseInt(t)
        case None => Failure(NotAnInteger)
        case Some(n) => Success(n)
  }

  predicate IsBlacklistTtl(ttl: nat) {
    MinBlacklistTtl <= ttl <= MaxBlacklistTtl
  }

  /** One gate decision for `bucket`; `ttl` is the value `random.randint`
      drew for a blacklist lifetime. */
  function Gate(s: Store, bucket: Snowflake, ttl: nat): (r: Result<(Decision, Store)>)
    requires IsBlacklistTtl(ttl)
    // A blacklisted bucket is denied; the blocked total grows by one, the
    // blacklist is re-armed with the fresh TTL, and nothing else changes.
    ensures BlacklistKey(bucket) in s ==>
      && (r.Success? <==> IntegerAt(s, BlockedKey).Some?)
      && (r.Success? ==>
            && r.value.0 == Deny
            && IntegerAt(r.value.1, BlockedKey) == Some(IntegerAt(s, BlockedKey).value + 1)
            && BlacklistKey(bucket) in r.value.1
            && r.value.1[BlacklistKey(bucket)] == Entry(Str(BlacklistMark), Some(ttl))
            && (CounterKey(bucket) in r.value.1 <==> CounterKey(bucket) in s)
            && (CounterKey(bucket) in s ==> r.value.1[CounterKey(bucket)] == s[CounterKey(bucket)])
            && UnchangedExcept(s, r.value.1, {BlacklistKey(bucket), BlockedKey}))
    // Otherwise the call is allowed, provided the counter can be read.
    ensures BlacklistKey(bucket) !in s ==>
      && (r.Success? <==> ReadCount(s, CounterKey(bucket)).Success?)
      && (r.Success? ==> r.value.0 == Allow)
    // At or under the limit: the counter advances by one and lives 2 s.
    ensures BlacklistKey(bucket) !in s && r.Success? && ReadCount(s, CounterKey(bucket)).value <= BurstLimit ==>
      && ReadCount(r.value.1, CounterKey(bucket)) == Success(ReadCount(s, CounterKey(bucket)).value + 1)
      && CounterKey(bucket) in r.value.1 && r.value.1[CounterKey(bucket)].ttl == Some(CounterTtl)
      && BlacklistKey(bucket) !in r.value.1
      && UnchangedExcept(s, r.value.1, {CounterKey(bucket)})
    // Over the limit: this call still proceeds, but the bucket is now
    // blacklisted and its counter is left as it was.
    ensures BlacklistKey(bucket) !in s && r.Success? && ReadCount(s, CounterKey(bucket)).value > BurstLimit ==>
      && BlacklistKey(bucket) in r.value.1
      && r.value.1[BlacklistKey(bucket)] == Entry(Str(BlacklistMark), Some(ttl))
      && UnchangedExcept(s, r.value.1, {BlacklistKey(bucket)})
  {
    var blacklist := BlacklistKey(bucket);
    var counter := CounterKey(bucket);
    NamespacesDisjoint(bucket, bucket, "");
    if blacklist in s then
      var s1 :- Incr(s, BlockedKey);
      Success((Deny, SetEx(s1, blacklist, ttl, BlacklistMark)))
    else
      var count :- ReadCount(s, counter);
      if count > BurstLimit then
        Success((Allow, SetEx(s, blacklist, ttl, BlacklistMark)))
      else
        Success((Allow, SetEx(s, counter, CounterTtl, IntText(count + 1))))
  }

  /** The entry under `key` is the same in both stores (or absent in both). */
  ghost predicate SameEntry(s: Store, s': Store, key: string) {
    (key in s <==> key in s') && (key in s ==> s'[key] == s[key])
  }

  /** A gate step for one bucket leaves every other bucket's blacklist flag
      and counter exactly as they were. */
  lemma GateIsolatesBuckets(s: Store, bucket: Snowflake, other: Snowflake, ttl: nat)
    requires IsBlacklistTtl(ttl)
    requires bucket != other
    requires Gate(s, bucket, ttl).Success?
    ensures SameEntry(s, Gate(s, bucket, ttl).value.1, BlacklistKey(other))
    ensures SameEntry(s, Gate(s, bucket, ttl).value.1, CounterKey(other))
  {
    BucketKeysInjective(bucket, other);
    NamespacesDisjoint(bucket, other, "");
    NamespacesDisjoint(other, bucket, "");
  }

  /** The gate never touches a morph mapping or the command totals. */
  lemma GateLeavesMorphAndTotals(s: Store, bucket: Snowflake, user: Snowflake, ttl: nat)
    requires IsBlacklistTtl(ttl)
    requires Gate(s, bucket, ttl).Success?
    ensures SameEntry(s, Gate(s, bucket, ttl).value.1, MorphKey(user))
    ensures SameEntry(s, Gate(s, bucket, ttl).value.1, CommandsKey)
  {
    NamespacesDisjoint(bucket, user, "");
    NamespacesDisjoint(user, bucket, "");
  }

  predicate AllBlacklistTtls(ttls: seq<nat>) {
    forall i | 0 <= i < |ttls| :: IsBlacklistTtl(ttls[i])
  }

  /** Consecutive invocations from one bucket with no expiry in between;
      `ttls[i]` is the blacklist lifetime drawn on the i-th call. */
  function GateSequence(s: Store, bucket: Snowflake, ttls: seq<nat>): (r: Result<(seq<Decision>, Store)>)
    requires AllBlacklistTtls(ttls)
    ensures r.Success? ==> |r.value.0| == |ttls|
    decreases |ttls|
  {
    if |ttls| == 0 then Success(([], s))
    else
      var first :- Gate(s, bucket, ttls[0]);
      var rest :- GateSequence(first.1, bucket, ttls[1..]);
      Success(([first.0] + rest.0, rest.1))
  }

  /** Once a bucket is blacklisted, every further call is denied for as long
      as the flag has not expired: each denial re-arms it. */
  lemma {:induction false} BlacklistedStaysDenied(s: Store, bucket: Snowflake, ttls: seq<nat>)
    requires AllBlacklistTtls(ttls)
    requires BlacklistKey(bucket) in s
    requires IntegerAt(s, BlockedKey).Some?
    ensures GateSequence(s, bucket, ttls).Success?
    ensures forall i | 0 <= i < |ttls| :: GateSequence(s, bucket, ttls).value.0[i] == Deny
    decreases |ttls|
  {
    if |ttls| > 0 {
      var s1 := Gate(s, bucket, ttls[0]).value.1;
      BlacklistedStaysDenied(s1, bucket, ttls[1..]);
    }
  }

  lemma GateSequenceStep(s: Store, bucket: Snowflake, ttls: seq<nat>)
    requires AllBlacklistTtls(ttls) && 0 < |ttls|
    requires Gate(s, bucket, ttls[0]).Success?
    requires GateSequence(Gate(s, bucket, ttls[0]).value.1, bucket, ttls[1..]).Success?
    ensures GateSequence(s, bucket, ttls).Success?
    ensures GateSequence(s, bucket, ttls).value.0 ==
      [Gate(s, bucket, ttls[0]).value.0] + GateSequence(Gate(s, bucket, ttls[0]).value.1, bucket, ttls[1..]).value.0
  {
  }

  /** A call from a bucket that is not blacklisted and whose counter reads
      at most one over the limit: it is allowed, the blocked total is
      untouched, and the counter advances unless it escalates. */
  lemma AllowedStep(s: Store, bucket: Snowflake, count: int, ttl: nat)
    requires IsBlacklistTtl(ttl)
    requires BlacklistKey(bucket) !in s
    requires ReadCount(s, CounterKey(bucket)) == Success(count)
    ensures Gate(s, bucket, ttl).Success? && Gate(s, bucket, ttl).value.0 == Allow
    ensures IntegerAt(Gate(s, bucket, ttl).value.1, BlockedKey) == IntegerAt(s, BlockedKey)
    ensures count <= BurstLimit ==>
      && BlacklistKey(bucket) !in Gate(s, bucket, ttl).value.1
      && ReadCount(Gate(s, bucket, ttl).value.1, CounterKey(bucket)) == Success(count + 1)
    ensures count > BurstLimit ==> BlacklistKey(bucket) in Gate(s, bucket, ttl).value.1
  {
    NamespacesDisjoint(bucket, bucket, "");
    assert SameEntry(s, Gate(s, bucket, ttl).value.1, BlockedKey);
  }

  /** A burst from a bucket whose counter reads `count` (at most one over the
      limit) and that is not blacklisted: the first `BurstLimit + 2 - count`
      calls proceed (the last of them escalates), and every later one is
      denied. */
  lemma {:induction false} BurstFromCount(s: Store, bucket: Snowflake, count: int, ttls: seq<nat>)
    requires AllBlacklistTtls(ttls)
    requires BlacklistKey(bucket) !in s
    requires ReadCount(s, CounterKey(bucket)) == Success(count)
    requires 0 <= count <= BurstLimit + 1
    requires IntegerAt(s, BlockedKey).Some?
    ensures GateSequence(s, bucket, ttls).Success?
    ensures forall i | 0 <= i < |ttls| ::
      GateSequence(s, bucket, ttls).value.0[i] == (if i < BurstLimit + 2 - count then Allow else Deny)
    decreases |ttls|
  {
    if |ttls| > 0 {
      AllowedStep(s, bucket, count, ttls[0]);
      var s1 := Gate(s, bucket, ttls[0]).value.1;
      if count <= BurstLimit {
        BurstFromCount(s1, bucket, count + 1, ttls[1..]);
      } else {
        BlacklistedStaysDenied(s1, bucket, ttls[1..]);
      }
      GateSequenceStep(s, bucket, ttls);
      var rest := GateSequence(s1, bucket, ttls[1..]).value.0;
      var ds := GateSequence(s, bucket, ttls).value.0;
      assert ds == [Allow] + rest;
      forall i | 1 <= i < |ttls|
        ensures ds[i] == (if i < BurstLimit + 2 - count then Allow else Deny)
      {
        assert ds[i] == rest[i - 1];
      }
    }
  }

  /** From a fresh bucket with nothing expiring in between, calls one to
      seven proceed (the seventh escalates) and the eighth is denied. */
  lemma EighthCallDenied(s: Store, bucket: Snowflake, ttls: seq<nat>)
    requires AllBlacklistTtls(ttls) && |ttls| == 8
    requires BlacklistKey(bucket) !in s && CounterKey(bucket) !in s
    requires IntegerAt(s, BlockedKey).Some?
    ensures GateSequence(s, bucket, ttls).Success?
    ensures GateSequence(s, bucket, ttls).value.0 == [Allow, Allow, Allow, Allow, Allow, Allow, Allow, Deny]
  {
    BurstFromCount(s, bucket, 0, ttls);
    var ds := GateSequence(s, bucket, ttls).value.0;
    assert |ds| == 8;
    assert forall i | 0 <= i < 8 :: ds[i] == (if i < 7 then Allow else Deny);
  }

  /** Every entry the gate writes for a bucket carries a TTL, so a bucket
      whose entries were volatile before keeps them volatile. */
  lemma GateWritesVolatile(s: Store, bucket: Snowflake, ttl: nat)
    requires IsBlacklistTtl(ttl)
    requires Gate(s, bucket, ttl).Success?
    requires CounterKey(bucket) in s ==> s[CounterKey(bucket)].ttl.Some?
    requires BlacklistKey(bucket) in s ==> s[BlacklistKey(bucket)].ttl.Some?
    ensures var s' := Gate(s, bucket, ttl).value.1;
      && (CounterKey(bucket) in s' ==> s'[CounterKey(bucket)].ttl.Some?)
      && (BlacklistKey(bucket) in s' ==> s'[BlacklistKey(bucket)].ttl.Some?)
  {
    NamespacesDisjoint(bucket, bucket, "");
  }

  /** A bucket with neither a blacklist flag nor a counter starts a fresh
      window: allowed, counter 1. */
  lemma FreshBucketAllowed(s: Store, bucket: Snowflake, ttl: nat)
    requires IsBlacklistTtl(ttl)
    requires BlacklistKey(bucket) !in s && CounterKey(bucket) !in s
    ensures Gate(s, bucket, ttl).Success? && Gate(s, bucket, ttl).value.0 == Allow
    ensures ReadCount(Gate(s, bucket, ttl).value.1, CounterKey(bucket)) == Success(1)
  {
  }

  /** No block is permanent: whatever a gate step decided, once the bucket's
      blacklist flag and counter have expired the next call is treated as
      the first of a fresh window. */
  lemma BlockIsTemporary(s: Store, bucket: Snowflake, ttl: nat, next: nat)
    requires IsBlacklistTtl(ttl) && IsBlacklistTtl(next)
    requires Gate(s, bucket, ttl).Success?
    requires CounterKey(bucket) in s ==> s[CounterKey(bucket)].ttl.Some?
    requires BlacklistKey(bucket) in s ==> s[BlacklistKey(bucket)].ttl.Some?
    ensures var later := Expire(Expire(Gate(s, bucket, ttl).value.1, BlacklistKey(bucket)), CounterKey(bucket));
      && Gate(later, bucket, next).Success?
      && Gate(later, bucket, next).value.0 == Allow
      && ReadCount(Gate(later, bucket, next).value.1, CounterKey(bucket)) == Success(1)
  {
    GateWritesVolatile(s, bucket, ttl);
    NamespacesDisjoint(bucket, bucket, "");
    var s' := Gate(s, bucket, ttl).value.1;
    var s1 := Expire(s', BlacklistKey(bucket));
    assert CounterKey(bucket) in s1 ==> s1[CounterKey(bucket)].ttl.Some?;
    var later := Expire(s1, CounterKey(bucket));
    FreshBucketAllowed(later, bucket, next);
  }
}

=== FILE: relay.dfy ===
/** The event-name mapping of the gateway relay (bot.py:102): a message on
    pub/sub channel `gateway:events:<event>` is dispatched locally as
    `<event>`. */
module Relay {

  const EventPrefix: string := "gateway:events:"

  /** `pattern` occurs in `s` starting at index `i`. */
  predicate OccursAt(pattern: string, s: string, i: nat) {
    i + |pattern| <= |s| && s[i..i + |pattern|] == pattern
  }

  /** `pattern` occurs somewhere in `s`. */
  predicate Occurs(pattern: string, s: string) {
    exists i: nat | i <= |s| :: OccursAt(pattern, s, i)
  }

  /** Python's `s.replace(pattern, "")`: one left-to-right pass deleting
      every non-overlapping occurrence. */
  function RemoveAll(s: string, pattern: string): (r: string)
    requires 0 < |pattern|
    ensures |r| <= |s|
    decreases |s|
  {
    if |s| < |pattern| then s
    else if s[..|pattern|] == pattern then RemoveAll(s[|pattern|..], pattern)
    else [s[0]] + RemoveAll(s[1..], pattern)
  }

  /** `channel.name.decode().replace("gateway:events:", "")`. A channel
      name with no occurrence of the prefix is dispatched under its own
      name, and the name never grows. */
  function EventName(channel: string): (event: string)
    ensures |event| <= |channel|
    ensures !Occurs(EventPrefix, channel) ==> event == channel
  {
    RemoveAllAbsentIf(channel, EventPrefix);
    RemoveAll(channel, EventPrefix)
  }

  lemma {:induction false} RemoveAllAbsent(s: string, pattern: string)
    requires 0 < |pattern|
    requires !Occurs(pattern, s)
    ensures RemoveAll(s, pattern) == s
    decreases |s|
  {
    if |s| >= |pattern| {
      assert !OccursAt(pattern, s, 0);
      assert s[..|pattern|] != pattern;
      forall i: nat
        ensures !OccursAt(pattern, s[1..], i)
      {
        assert !OccursAt(pattern, s, i + 1);
        if i + |pattern| <= |s[1..]| {
          assert s[1..][i..i + |pattern|] == s[i + 1..i + 1 + |pattern|];
        }
      }
      RemoveAllAbsent(s[1..], pattern);
      assert s == [s[0]] + s[1..];
    }
  }

  /** `RemoveAllAbsent` as an implication, for use inside a function body. */
  lemma RemoveAllAbsentIf(s: string, pattern: string)
    requires 0 < |pattern|
    ensures !Occurs(pattern, s) ==> RemoveAll(s, pattern) == s
  {
    if !Occurs(pattern, s) {
      RemoveAllAbsent(s, pattern);
    }
  }

  /** Publishing `<event>` on `gateway:events:<event>` dispatches `<event>`,
      for every event name that does not itself contain the prefix. */
  lemma ChannelRoundTrip(event: string)
    requires !Occurs(EventPrefix, event)
    ensures EventName(EventPrefix + event) == event
  {
    var channel := EventPrefix + event;
    assert channel[..|EventPrefix|] == EventPrefix;
    assert channel[|EventPrefix|..] == event;
    RemoveAllAbsent(event, EventPrefix);
  }

  /** Dropping the first character shifts every occurrence one place left. */
  lemma OccursAtShift(pattern: string, s: string, j: nat)
    requires 0 < |s|
    ensures OccursAt(pattern, s[1..], j) <==> OccursAt(pattern, s, j + 1)
  {
    if j + 1 + |pattern| <= |s| {
      assert s[1..][j..j + |pattern|] == s[j + 1..j + 1 + |pattern|];
    }
  }

  /** Where no occurrence starts at the head, the pass keeps the head. */
  lemma RemoveAllKeepsHead(s: string, pattern: string)
    requires 0 < |pattern| && 0 < |s|
    requires !OccursAt(pattern, s, 0)
    ensures RemoveAll(s, pattern) == [s[0]] + RemoveAll(s[1..], pattern)
  {
    if |s| < |pattern| {
      RemoveAllShort(s, pattern);
      RemoveAllShort(s[1..], pattern);
      assert s == [s[0]] + s[1..];
    } else {
      assert s[0..0 + |pattern|] == s[..|pattern|];
    }
  }

  lemma RemoveAllShort(s: string, pattern: string)
    requires 0 < |pattern| && |s| < |pattern|
    ensures RemoveAll(s, pattern) == s
  {
  }

  /** The pass keeps everything before the leftmost occurrence, deletes
      that occurrence, and carries on after it: occurrences are removed
      leftmost first and never overlap. */
  lemma {:induction false} RemoveAllLeftmost(s: string, pattern: string, i: nat)
    requires 0 < |pattern|
    requires OccursAt(pattern, s, i)
    requires forall j: nat | j < i :: !OccursAt(pattern, s, j)
    ensures RemoveAll(s, pattern) == s[..i] + RemoveAll(s[i + |pattern|..], pattern)
    decreases i, 1
  {
    if i == 0 {
      RemoveAllAtHead(s, pattern);
    } else {
      LeftmostStep(s, pattern, i);
    }
  }

  /** The inductive step above: a head that starts no occurrence is kept
      in front of the tail's result. */
  lemma {:induction false} LeftmostStep(s: string, pattern: string, i: nat)
    requires 0 < |pattern| && 0 < i
    requires OccursAt(pattern, s, i)
    requires forall j: nat | j < i :: !OccursAt(pattern, s, j)
    ensures RemoveAll(s, pattern) == s[..i] + RemoveAll(s[i + |pattern|..], pattern)
    decreases i, 0
  {
    var t := s[1..];
    LeftmostInTail(s, pattern, i);
    var rest := RemoveAll(s[i + |pattern|..], pattern);
    JoinHead(s, i, |pattern|, rest);
    calc {
      RemoveAll(s, pattern);
      == { RemoveAllKeepsHead(s, pattern); }
      [s[0]] + RemoveAll(t, pattern);
      == { RemoveAllLeftmost(t, pattern, i - 1); }
      [s[0]] + (t[..i - 1] + rest);
      == 
      s[..i] + rest;
    }
  }

  /** Dropping a head that starts no occurrence keeps the leftmost
      occurrence leftmost, one place earlier. */
  lemma LeftmostInTail(s: string, pattern: string, i: nat)
    requires 0 < i
    requires OccursAt(pattern, s, i)
    requires forall j: nat | j < i :: !OccursAt(pattern, s, j)
    ensures 0 < |s| && !OccursAt(pattern, s, 0)
    ensures OccursAt(pattern, s[1..], i - 1)
    ensures forall j: nat | j < i - 1 :: !OccursAt(pattern, s[1..], j)
  {
    assert !OccursAt(pattern, s, 0);
    NoEarlierOccurrenceAfterHead(s, pattern, i);
    OccursAtShift(pattern, s, i - 1);
  }

  lemma RemoveAllAtHead(s: string, pattern: string)
    requires 0 < |pattern|
    requires OccursAt(pattern, s, 0)
    ensures RemoveAll(s, pattern) == s[..0] + RemoveAll(s[|pattern|..], pattern)
  {
    assert s[..|pattern|] == s[0..0 + |pattern|];
    assert s[..0] == [];
  }

  /** Sequence bookkeeping for the inductive step above. */
  lemma JoinHead(s: string, i: nat, k: nat, rest: string)
    requires 0 < i && i + k <= |s|
    ensures s[1..][i - 1 + k..] == s[i + k..]
    ensures [s[0]] + (s[1..][..i - 1] + rest) == s[..i] + rest
  {
    assert s[..i] == [s[0]] + s[1..][..i - 1];
  }

  lemma NoEarlierOccurrenceAfterHead(s: string, pattern: string, i: nat)
    requires 0 < i && 0 < |s|
    requires forall j: nat | j < i :: !OccursAt(pattern, s, j)
    ensures forall j: nat | j < i - 1 :: !OccursAt(pattern, s[1..], j)
  {
    forall j: nat | j < i - 1
      ensures !OccursAt(pattern, s[1..], j)
    {
      OccursAtShift(pattern, s, j);
    }
  }

  /** The prefix is removed wherever it occurs, not only at the start:
      a channel `<a>gateway:events:<b>` maps to `<a><b>` when `<a>` holds
      no start of the prefix and `<b>` holds no occurrence of it. */
  lemma InnerOccurrenceRemoved(a: string, b: string)
    requires forall j: nat | j < |a| :: !OccursAt(EventPrefix, a + EventPrefix + b, j)
    requires !Occurs(EventPrefix, b)
    ensures EventName(a + EventPrefix + b) == a + b
  {
    var s := a + EventPrefix + b;
    assert s[|a|..|a| + |EventPrefix|] == EventPrefix;
    RemoveAllLeftmost(s, EventPrefix, |a|);
    assert s[..|a|] == a;
    assert s[|a| + |EventPrefix|..] == b;
    RemoveAllAbsent(b, EventPrefix);
  }

  /** A single pass: deleting the inner occurrence of
      `gatewgateway:events:ay:events:<x>` joins `gatew` and `ay:events:<x>`
      into a fresh occurrence, which survives into the dispatched name. */
  lemma SinglePass(x: string)
    requires !Occurs(EventPrefix, x)
    ensures EventName("gatew" + EventPrefix + "ay:events:" + x) == EventPrefix + x
    ensures Occurs(EventPrefix, EventName("gatew" + EventPrefix + "ay:events:" + x))
  {
    var b := "ay:events:" + x;
    SplitAroundPrefix(x);
    NoOccurrenceStartsInGatew(b);
    NoOccurrenceInTail(x);
    InnerOccurrenceRemoved("gatew", b);
    assert OccursAt(EventPrefix, EventPrefix + x, 0);
  }

  /** Sequence bookkeeping for the lemma above: `gatew` and `ay:events:`
      join into the prefix. */
  lemma SplitAroundPrefix(x: string)
    ensures "gatew" + EventPrefix + "ay:events:" + x == "gatew" + EventPrefix + ("ay:events:" + x)
    ensures "gatew" + ("ay:events:" + x) == EventPrefix + x
    ensures (EventPrefix + x)[0..|EventPrefix|] == EventPrefix
  {
    assert "gatew" + "ay:events:" == EventPrefix;
    assert "gatew" + ("ay:events:" + x) == ("gatew" + "ay:events:") + x;
  }

  /** No occurrence starts in `ay:events:`, which holds no 'g', so
      `ay:events:<x>` contains the prefix only where `<x>` does. */
  lemma NoOccurrenceInTail(x: string)
    requires !Occurs(EventPrefix, x)
    ensures !Occurs(EventPrefix, "ay:events:" + x)
  {
    var t := "ay:events:";
    var b := t + x;
    forall i: nat | i <= |b|
      ensures !OccursAt(EventPrefix, b, i)
    {
      if i < |t| {
        assert b[i] == t[i] && t[i] != 'g';
        if i + |EventPrefix| <= |b| {
          assert b[i..i + |EventPrefix|][0] == b[i];
        }
      } else {
        assert !OccursAt(EventPrefix, x, i - |t|);
        if i + |EventPrefix| <= |b| {
          assert b[i..i + |EventPrefix|] == x[i - |t|..i - |t| + |EventPrefix|];
        }
      }
    }
  }

  /** No occurrence of the prefix starts in the first five characters of
      `gatewgateway:events:...`: each would have to match the 'g' at index 5
      against one of the letters "ateway". */
  lemma NoOccurrenceStartsInGatew(b: string)
    ensures forall j: nat | j < 5 :: !OccursAt(EventPrefix, "gatew" + EventPrefix + b, j)
  {
    var s := "gatew" + EventPrefix + b;
    forall j: nat | j < 5
      ensures !OccursAt(EventPrefix, s, j)
    {
      assert s[5] == 'g' && EventPrefix[5 - j] != 'g';
      if j + |EventPrefix| <= |s| {
        assert s[j..j + |EventPrefix|][5 - j] == s[5];
      }
    }
  }
}

=== FILE: results.dfy ===
/** Failure-compatible wrappers shared by the governance model. A `Result`
    stands for a Python call that either returns a value or raises. */
module Results {

  datatype Option<+T> = None | Some(value: T)

  /** Why an operation raised instead of returning. */
  datatype Fault =
    | WrongType       // Redis refused an operation on a key holding another kind of value
    | NotAnInteger    // `int(...)` or Redis INCR met text that is not an integer
    | Unavailable     // a chat platform REST call failed (anything but a 404 from the member lookup)

  datatype Result<+T> = Success(value: T) | Failure(error: Fault) {

    predicate IsFailure() {
      Failure?
    }

    function PropagateFailure<U>(): Result<U>
      requires Failure?
    {
      Failure(error)
    }

    function Extract(): T
      requires Success?
    {
      value
    }
  }
}

=== FILE: store.dfy ===
/** An in-memory model of the handful of Redis commands the gateway issues
    (EXISTS, GET, SETEX, INCR, HINCRBY), each as one atomic step on an
    immutable map. Time is abstracted: an entry either carries a TTL or is
    persistent, and `Expire` is the step at which a TTL runs out. */
module Store {
  import opened Results
  import opened Numerals

  datatype Value =
    | Str(text: string)                // a Redis string
    | Hash(fields: map<string, int>)   // a Redis hash of integer fields

  /** `ttl == None` means the key never expires. */
  datatype Entry = Entry(value: Value, ttl: Option<nat>)

  type Store = map<string, Entry>

  /** Every key outside `touched` is present in `s'` exactly when it is
      present in `s`, with the same entry. */
  ghost predicate UnchangedExcept(s: Store, s': Store, touched: set<string>) {
    forall k :: k !in touched ==> (k in s <==> k in s') && (k in s ==> s'[k] == s[k])
  }

  /** GET: the text under `key`, `None` when absent; a hash raises WRONGTYPE. */
  function Get(s: Store, key: string): (r: Result<Option<string>>)
    ensures r == Failure(WrongType) <==> key in s && s[key].value.Hash?
    ensures r.Success? ==> (r.value.Some? <==> key in s)
    ensures r.Success? && key in s ==> s[key].value == Str(r.value.value)
  {
    if key !in s then Success(None)
    else match s[key].value
      case Str(t) => Success(Some(t))
      case Hash(_) => Failure(WrongType)
  }

  /** SETEX: overwrite `key`, whatever it held, with `text` expiring in `ttl`
      seconds. */
  function SetEx(s: Store, key: string, ttl: nat, text: string): (s': Store)
    requires 0 < ttl
    ensures key in s' && s'[key] == Entry(Str(text), Some(ttl))
    ensures UnchangedExcept(s, s', {key})
  {
    s[key := Entry(Str(text), Some(ttl))]
  }

  /** The integer Redis sees at `key`: an absent key counts as 0, text must
      parse as an integer, a hash is not an integer at all. */
  function IntegerAt(s: Store, key: string): Option<int> {
    if key !in s then Some(0)
    else match s[key].value
      case Str(t) => ParseInt(t)
      case Hash(_) => None
  }

  /** INCR: add one to the integer at `key`; an absent key is created without
      expiry, an existing key keeps its TTL, anything that is not an integer
      raises. */
  function Incr(s: Store, key: string): (r: Result<Store>)
    ensures r.Success? <==> IntegerAt(s, key).Some?
    ensures r.Success? ==> IntegerAt(r.value, key) == Some(IntegerAt(s, key).value + 1)
    ensures r.Success? ==> key in r.value && r.value[key].value.Str?
    ensures r.Success? ==> r.value[key].ttl == (if key in s then s[key].ttl else None)
    ensures r.Success? ==> UnchangedExcept(s, r.value, {key})
  {
    match IntegerAt(s, key)
    case None => if s[key].value.Hash? then Failure(WrongType) else Failure(NotAnInteger)
    case Some(n) =>
      Success(s[key := Entry(Str(IntText(n + 1)), if key in s then s[key].ttl else None)])
  }

  /** The integer held in field `field` of the hash at `key` (0 when absent). */
  function HashField(s: Store, key: string, field: string): int {
    if key in s && s[key].value.Hash? && field in s[key].value.fields then s[key].value.fields[field] else 0
  }

  /** HINCRBY: add `delta` to one field of the hash at `key`, creating the hash
      or the field as needed; a string at `key` raises WRONGTYPE. */
  function HIncrBy(s: Store, key: string, field: string, delta: int): (r: Result<Store>)
    ensures r.Failure? <==> key in s && s[key].value.Str?
    ensures r.Success? ==> key in r.value && r.value[key].value.Hash?
    ensures r.Success? ==> HashField(r.value, key, field) == HashField(s, key, field) + delta
    ensures r.Success? ==> forall f | f != field ::
      HashField(r.value, key, f) == HashField(s, key, f)
    ensures r.Success? && key in s ==> r.value[key].ttl == s[key].ttl
    // A hash it creates is persistent.
    ensures r.Success? && key !in s ==> r.value[key].ttl.None?
    ensures r.Success? ==> UnchangedExcept(s, r.value, {key})
  {
    if key !in s then Success(s[key := Entry(Hash(map[field := delta]), None)])
    else match s[key].value
      case Str(_) => Failure(WrongType)
      case Hash(fields) =>
        var current := if field in fields then fields[field] else 0;
        Success(s[key := Entry(Hash(fields[field := current + delta]), s[key].ttl)])
  }

  /** The moment a volatile key's TTL runs out: the key disappears.
      Persistent keys never expire. */
  function Expire(s: Store, key: string): (s': Store)
    ensures key in s && s[key].ttl.Some? ==> key !in s'
    ensures key in s && s[key].ttl.None? ==> key in s' && s'[key] == s[key]
    ensures UnchangedExcept(s, s', {key})
    ensures s'.Keys <= s.Keys
  {
    if key in s && s[key].ttl.Some? then s - {key} else s
  }
}
